=== FILE: README.md ===
# Parallax page engine: a Dafny model of its state machines

`script.js` drives a single registration page. Scroll events feed a
frame-coalescing scheduler. Each animation frame toggles the navbar's
`scrolled` class, translates the hero layers, and moves the divider bands and
gallery cards when they are on screen. It also reveals elements once they
scroll into view and starts the stat counters once. The page has custom select
widgets and a registration form whose submit handler validates the controls.
On success it shows a confirmation overlay and resets the form; on failure it
shakes the form.

This project models those parts as immutable state records and pure transition
functions, with no DOM:

- `scheduler.dfy` (module `Scheduler`): `scrollY`, the `ticking` flag, and a
  count of queued `onFrame` callbacks. Scroll events and "run one queued
  frame" are explicit inputs.
- `effects.dfy` (module `Effects`): the painting half of `onFrame`. It works on
  the geometry the frame measures, given as integer pixels. A written
  transform records the rectangle and viewport height it was computed from.
- `dropdown.dfy` (module `Dropdown`): the custom selects, with trigger clicks,
  option clicks and outside clicks.
- `validation.dfy` (module `Validation`): the ECMAScript `trim`, the verdict,
  and the submit handler's effect on the error marks, the overlay, and the
  form and select reset.
- `page.dfy` (module `Page`): the whole page as one event-driven machine. Its
  lemmas cover arbitrary event sequences.
- `wrappers.dfy` (module `Wrappers`): `Option`.

Geometry, scroll offsets, viewport heights, field strings and checkbox states
come in as event parameters or fields. A `Frame` event runs one queued
`onFrame` callback with the geometry the page has at that moment. A `Resize`
event is the debounce timer firing and storing the new height. The thresholds
`rect.top < winH * 0.85` and `rect.top < winH * 0.8` are compared exactly as
`20 * top < 17 * winH` and `5 * top < 4 * winH`.

Three behaviours of the code that are easy to miss:

- The load-time frame request does not raise `ticking`, so it can leave two
  frames queued (see Findings). The page model starts as the code does, and
  its invariant allows that one extra frame.
- An option click on a select without a hidden input stops at the failing
  assignment, so it neither clears the select's error nor closes it.
- An option without `data-value` writes the string `"undefined"`, which
  counts as a valid selection.

## Model

| member | source | states |
|---|---|---|
| Scheduler.OnScroll | script.js:36-42 | a scroll always records its offset and leaves `ticking` set; it queues a frame exactly when `ticking` is false (even with the load frame still queued), so the surplus of queued frames is unchanged and coalescing is preserved |
| Scheduler.OnFrame | script.js:54-55 | running a queued frame clears `ticking` and consumes exactly that callback without touching the offset; with nothing queued nothing happens; the surplus never grows and coalescing is preserved |
| Scheduler.ScrollIdempotent | script.js:36-42 | a second scroll before the frame has the same effect as that scroll alone |
| Scheduler.BurstCoalesces | script.js:36-42 | any non-empty burst of scrolls is equivalent to its last scroll alone |
| Scheduler.BurstThenFrame | script.js:36-42 | after a burst, the next frame reads the last offset; the burst added at most one frame, and from a coalesced state it leaves exactly one queued |
| Scheduler.FrameThenScroll | script.js:54-55 | a scroll arriving after a frame started queues exactly one new frame |
| Scheduler.CoalescedRun | script.js:36-42 | once coalesced, every input sequence keeps `pending == (ticking ? 1 : 0)`, so at most one frame is ever queued |
| Scheduler.Load | script.js:272-273 | the start-up request as written: the load offset recorded and exactly one frame queued with `ticking` still false, a surplus of one, so not coalesced |
| Scheduler.Boot | script.js:272-273 | the start-up request with the flag set: coalesced, one frame queued, reading the load offset |
| Scheduler.BootedRunCoalesced | script.js:272-273 | with the corrected start-up, no input sequence ever queues two frames |
| Scheduler.SurplusRun | script.js:36-55 | frames queued beyond the `ticking` one never become more and never drop below zero |
| Scheduler.LoadRunBounded | script.js:272-273 | as written, at most two frames are ever queued, and a raised `ticking` always has a frame behind it |
| Scheduler.LoadScrollQueuesTwoFrames | script.js:272-273 | as written, one scroll before the load frame runs leaves two frames queued |
| Effects.GateAll | script.js:71-90 | a band or card gets a transform computed from its rectangle exactly when `top < winH && bottom > 0`; otherwise its previous transform is kept; transforms already written stay computed-while-visible |
| Effects.RevealAll | script.js:93-98 | reveals are only ever added; an element is added only when its top is above 85% of the viewport height, and always added then |
| Effects.Paint | script.js:57-110 | a frame sets `scrolled` iff the offset exceeds 80, positions the hero layers for the current offset, gates bands and cards, and only grows the revealed set; it starts the counters at most once (never after the latch is set, and only with a stats card above 80% of the viewport); it preserves the one-shot and written-while-visible invariants |
| Effects.NavbarThreshold | script.js:58-62 | offset 79 (and 80) leaves `scrolled` off and 81 puts it on; the class depends on the offset alone, whatever it was before |
| Effects.PaintIdempotent | script.js:54-111 | painting the same geometry twice equals painting it once |
| Dropdown.MarkPlaceholders | script.js:155-156 | at start-up every value element carries `placeholder` and nothing else changes |
| Dropdown.ClickTrigger | script.js:159-166 | a trigger click toggles that widget, closes every other one, leaves at most one open, and changes nothing else |
| Dropdown.Pick | script.js:170-185 | choosing an option makes exactly it active and shows its text without placeholder; with a hidden input it stores the option's value and clears error and open; without one, error and open are left as they were |
| Dropdown.ClickOption | script.js:169-186 | an option click changes only its own widget and preserves at-most-one-open |
| Dropdown.ClickOutside | script.js:190-192 | an outside click closes every widget and changes nothing else |
| Dropdown.TriggerTwice | script.js:159-166 | two clicks on the same trigger restore that widget and leave every other widget closed |
| Dropdown.TriggerOpensExclusively | script.js:159-166 | opening a closed widget leaves it the only open one |
| Validation.TrimStartDropsWhitespace | script.js:217 | the leading trim removes a prefix made only of whitespace |
| Validation.TrimEndDropsWhitespace | script.js:217 | the trailing trim removes a suffix made only of whitespace |
| Validation.TrimKeepsCore | script.js:217 | `trim` yields one contiguous run of the value with only whitespace outside it; a non-empty result starts and ends with non-whitespace |
| Validation.TrimEmptyIffWhitespace | script.js:217 | a value trims to empty exactly when every character is whitespace |
| Validation.BlankMeansOnlyWhitespace | script.js:216-221 | a required field fails exactly when it holds only whitespace |
| Validation.CheckControls | script.js:208-237 | the handler's flag-lowering loops end with `isValid` equal to the control-by-control verdict, with one error mark exactly per blank field, per select without a non-empty hidden value, and for an unchecked terms box |
| Validation.Submit | script.js:205-257 | error marks end up exactly on the failing controls; the submission succeeds iff no control is marked; on success the overlay opens and fields, terms box and selects are reset to defaults, placeholder, empty value and no active option, with every other attribute (default values, default check, placeholder text, options, open state) kept; on failure the form shakes and nothing else changes |
| Validation.ErrorsIgnoreHistory | script.js:212-237 | the marks a submission leaves depend only on the current values, not on earlier marks |
| Validation.ResubmitAfterSuccessFails | script.js:244-251 | after a successful submit the selects are empty, so an immediate resubmit fails whenever there is a select |
| Page.Init | script.js:270-273 | the loaded page has one frame queued for the load offset with `ticking` false, the `placeholder` class added to every select and nothing else about the selects, form or viewport height changed, no navbar class, no transform written, no reveals and the latch open; it satisfies the page invariant when at most one select starts open |
| Page.Step | script.js:36-258 | every handler preserves the page's shape and its invariant (at most one frame beyond the `ticking` one, at most one open select, one-shot counters, transforms written only while visible), and preserves coalescing once reached |
| Page.InvariantHolds | script.js:36-258 | the page invariant holds after any sequence of events |
| Page.PageRunsSafely | script.js:270-273 | from load as written, after any events: at most two frames queued, at most one while `ticking` is clear, a raised `ticking` backed by a queued frame, at most one select open, counters started at most once |
| Page.CoalescedPageRun | script.js:36-55 | once the scheduler is coalesced, every sequence of page events keeps `pending == (ticking ? 1 : 0)` |
| Page.BootedPageCoalesced | script.js:272-273 | with a start-up request that raises `ticking`, no sequence of page events ever queues two frames, and `ticking` holds exactly when one is queued |
| Page.RevealsNeverReset | script.js:93-98 | a revealed element stays revealed through any later events |
| Page.LatchStaysClosed | script.js:101-110 | once the stats latch is set, no later event starts the counters again, whatever the geometry |
| Page.TransformsChangeOnlyWhenVisible | script.js:71-79 | a band transform that changed over a run was last written by a frame in which the band was on screen |
| Page.RunScrolls | script.js:33-42 | scroll events change nothing but the scheduler state |
| Page.FrameSeesLatestScroll | script.js:36-62 | a frame after a burst of scrolls paints the navbar and hero layers with the last offset, clears `ticking`, and leaves at most the load frame queued (nothing when the scheduler was coalesced) |

## Left out

- Parallax offset values (`scrollY * speed`, `(rect.top / winH) * 100 * speed`, card progress): floating-point arithmetic. A transform records only the geometry it was computed from.
- Effects.Paint: states which geometry a transform was computed from, not the pixel offset written into it, because that offset is floating-point arithmetic on attribute values.
- The counter animation (`animateCounters` ticks, the ease-out cubic, `Math.round`, the 1500 ms duration): timer-driven floating-point animation. Only how many times it is started is modelled.
- `parseFloat` / `parseInt` of `data-speed`, `data-parallax-card` and `data-count`, and their `|| 0` default: foreign string-to-number semantics that only feed the numeric offsets.
- `requestAnimationFrame`, `setTimeout`, `clearTimeout`, `performance.now`: host scheduling. A frame is an explicit event. The resize debounce window is not modelled; `Resize` is the timer firing.
- Smooth anchor scrolling (script.js:136-144): a browser `scrollIntoView` call with no state.
- The shake restart trick (script.js:254-256): the forced reflow is a rendering effect. Failure only sets the `shaking` flag.
- The overlay close handlers (script.js:260-267): visual only. The overlay flag is set on success and never cleared in the model.
- DOM queries, `getBoundingClientRect`, `classList` and `textContent` become record fields and event parameters. The sets of bands, cards, reveals, selects and options are fixed at load.
- The page markup is assumed to give the navbar no `scrolled` class and no reveal element the `visible` class at load; the script never sets either before its first frame, so `Page.Init` starts with both off.
- Missing elements that make the script throw are assumed present: the navbar, each select's trigger and value element, and the `#confirmClose` button when the form and overlay exist. Without that button, script.js:260 throws before the load frame is requested. An absent stats card, hidden input or terms box is modelled.
- Floating-point rounding in the 0.85 and 0.8 thresholds: they are compared exactly on integer pixels.
- `.error` marks on form elements other than the required fields, the selects and the terms box's parent; selects outside the form; non-required fields reset by `regForm.reset()`.
- A missing `data-placeholder` on a value element: the placeholder text is taken as given.
- Native constraint validation of `required` before the submit event: a browser behaviour outside the script.

## Findings

| source | as written | input that shows it | evidently intended | confidence | as-written member | corrected member |
|---|---|---|---|---|---|---|
| script.js:272-273 | the load-time `requestAnimationFrame(onFrame)` leaves `ticking` false | a scroll event delivered before the load frame has run: `onScroll` sees `ticking == false` and queues a second `onFrame`, so two callbacks are pending | the load request sets `ticking` like every other request, so at most one frame is ever pending | low: for the same measured geometry the duplicate frame repeats the first one's results (`Effects.PaintIdempotent`). The navbar, hero layers, bands (measured on their untransformed parent) and the stats latch come out unchanged, and reveals can only grow. A gallery card is measured with the transform the first frame just wrote, so it may move one more step. The cost is redundant work plus that one extra card step; not executed | Scheduler.LoadScrollQueuesTwoFrames | Page.BootedPageCoalesced |

=== FILE: dropdown.dfy ===
/**
  The custom select widgets of script.js. Each widget has a trigger, a list of
  options, a value element showing the chosen caption (or a placeholder), and
  usually a hidden input carrying the submitted value. The page's widgets are
  a sequence; a click names the widget (and option) it lands on.
*/
module Dropdown {
  import opened Wrappers

  /** A `.select-option`: its text and its `data-value` attribute, if any. */
  datatype Choice = Choice(caption: string, dataValue: Option<string>)

  /** One `.custom-select`. `active` holds the indices of the options that
      carry the `active` class; `text` and `placeholder` describe the value
      element; `hidden` is the hidden input's value, `None` when the widget
      has no hidden input. */
  datatype Select = Select(
    options: seq<Choice>,
    placeholderText: string,
    open: bool,
    active: set<nat>,
    text: string,
    placeholder: bool,
    hidden: Option<string>,
    error: bool)

  /** At most one widget is open. */
  predicate AtMostOneOpen(ss: seq<Select>) {
    forall a, b :: 0 <= a < |ss| && 0 <= b < |ss| && ss[a].open && ss[b].open ==> a == b
  }

  /** Only real options are ever marked active. */
  predicate ActiveInRange(s: Select) {
    forall j :: j in s.active ==> j < |s.options|
  }

  /** The string a hidden input holds after `value = option.dataset.value`:
      a missing attribute is assigned as `undefined` and stringified. */
  function WrittenValue(c: Choice): string {
    match c.dataValue
    case Some(v) => v
    case None => "undefined"
  }

  /** Start-up: every value element gets the `placeholder` class. */
  function MarkPlaceholders(ss: seq<Select>): (r: seq<Select>)
    ensures |r| == |ss|
    ensures forall k :: 0 <= k < |ss| ==> r[k].placeholder && r[k] == ss[k].(placeholder := true)
  {
    seq(|ss|, k requires 0 <= k < |ss| => ss[k].(placeholder := true))
  }

  /** A click on widget `i`'s trigger: every other widget closes and `i`
      toggles. The click does not reach the document handler. */
  function ClickTrigger(ss: seq<Select>, i: nat): (r: seq<Select>)
    requires i < |ss|
    ensures |r| == |ss|
    ensures AtMostOneOpen(r)
    ensures r[i].open <==> !ss[i].open
    ensures r[i] == ss[i].(open := r[i].open)
    ensures forall k :: 0 <= k < |ss| && k != i ==> !r[k].open && r[k] == ss[k].(open := false)
  {
    seq(|ss|, k requires 0 <= k < |ss| =>
      if k == i then ss[k].(open := !ss[k].open) else ss[k].(open := false))
  }

  /** The option handler on one widget. When the widget has no hidden input the
      assignment to it throws, and the error and open classes are left as they
      were. */
  function Pick(s: Select, j: nat): (r: Select)
    requires j < |s.options|
    ensures r.options == s.options && r.placeholderText == s.placeholderText
    ensures r.active == {j}
    ensures r.text == s.options[j].caption && !r.placeholder
    ensures s.hidden.Some? ==> r.hidden == Some(WrittenValue(s.options[j])) && !r.error && !r.open
    ensures s.hidden.None? ==> r.hidden.None? && r.error == s.error && r.open == s.open
    ensures ActiveInRange(r)
  {
    var shown := s.(active := {j}, text := s.options[j].caption, placeholder := false);
    if s.hidden.None? then shown
    else shown.(hidden := Some(WrittenValue(s.options[j])), error := false, open := false)
  }

  /** A click on option `j` of widget `i`: only that widget changes. The
      dropdown stops the click before the document handler. */
  function ClickOption(ss: seq<Select>, i: nat, j: nat): (r: seq<Select>)
    requires i < |ss| && j < |ss[i].options|
    ensures |r| == |ss|
    ensures r[i] == Pick(ss[i], j)
    ensures forall k :: 0 <= k < |ss| && k != i ==> r[k] == ss[k]
    ensures AtMostOneOpen(ss) ==> AtMostOneOpen(r)
  {
    ss[i := Pick(ss[i], j)]
  }

  /** A click anywhere else on the document closes every widget. */
  function ClickOutside(ss: seq<Select>): (r: seq<Select>)
    ensures |r| == |ss|
    ensures forall k :: 0 <= k < |ss| ==> !r[k].open && r[k] == ss[k].(open := false)
    ensures AtMostOneOpen(r)
  {
    seq(|ss|, k requires 0 <= k < |ss| => ss[k].(open := false))
  }

  /** Clicking the same trigger twice restores the widget's open state, and
      leaves every other widget closed. */
  lemma TriggerTwice(ss: seq<Select>, i: nat)
    requires i < |ss|
    ensures ClickTrigger(ClickTrigger(ss, i), i)[i] == ss[i]
    ensures forall k :: 0 <= k < |ss| && k != i ==> !ClickTrigger(ClickTrigger(ss, i), i)[k].open
  {
  }

  /** Opening a widget through its trigger leaves it the only open one. */
  lemma TriggerOpensExclusively(ss: seq<Select>, i: nat)
    requires i < |ss| && !ss[i].open
    ensures forall k :: 0 <= k < |ss| ==> (ClickTrigger(ss, i)[k].open <==> k == i)
  {
  }
}

=== FILE: effects.dfy ===
/**
  The per-frame decisions of `onFrame` in script.js, over an abstract page:
  the navbar threshold, the hero layers, the visibility-gated band and card
  transforms, the one-way reveals and the one-shot stats latch. Geometry is
  what `getBoundingClientRect` reports during the frame, in whole pixels; the
  numeric parallax offsets are not modelled, only which geometry a written
  transform was computed from.
*/
module Effects {
  import opened Wrappers

  /** The vertical extent of an element's bounding box, relative to the viewport. */
  datatype Rect = Rect(top: int, bottom: int)

  /** An element's `transform`: never written by a frame, or the translation a
      frame computed from this rectangle and viewport height. */
  datatype Transform = Untouched | Placed(rect: Rect, viewH: int)

  /** The geometry one frame reads: one rectangle per divider band (its
      parent's box) and per gallery card, the top of every reveal element, and
      the top of the stats card when the page has one. */
  datatype Geometry = Geometry(bands: seq<Rect>, cards: seq<Rect>, revealTops: seq<int>, statsTop: Option<int>)

  /** The visual state the frame writes. `heroAt` is the scroll offset the hero
      layers were last translated for; `counterRuns` counts the calls of
      `animateCounters`. */
  datatype Visuals = Visuals(
    navScrolled: bool,
    heroAt: Option<int>,
    bands: seq<Transform>,
    cards: seq<Transform>,
    revealed: seq<bool>,
    statsCounted: bool,
    counterRuns: nat)

  /** Scroll offset beyond which the navbar carries `scrolled`. */
  const NavThreshold: int := 80

  /** The frame supplies exactly one measurement per element. */
  predicate Fits(v: Visuals, g: Geometry) {
    |g.bands| == |v.bands| && |g.cards| == |v.cards| && |g.revealTops| == |v.revealed|
  }

  /** `rect.top < winH && rect.bottom > 0`: some part of the box is on screen. */
  predicate InViewport(r: Rect, winH: int) {
    r.top < winH && r.bottom > 0
  }

  /** `rect.top < winH * 0.85`, compared exactly. */
  predicate RevealDue(top: int, winH: int) {
    top * 20 < winH * 17
  }

  /** `rect.top < winH * 0.8`, compared exactly. */
  predicate StatsDue(top: int, winH: int) {
    top * 5 < winH * 4
  }

  /** Whether this frame calls `animateCounters`. */
  predicate CountersFire(v: Visuals, g: Geometry, winH: int) {
    !v.statsCounted && g.statsTop.Some? && StatsDue(g.statsTop.value, winH)
  }

  /** The counter animation has started exactly as often as the latch says. */
  predicate OneShot(v: Visuals) {
    v.counterRuns == (if v.statsCounted then 1 else 0)
  }

  /** Every transform written so far was computed while its element was on screen. */
  predicate WrittenWhenVisible(ts: seq<Transform>) {
    forall i :: 0 <= i < |ts| && ts[i].Placed? ==> InViewport(ts[i].rect, ts[i].viewH)
  }

  predicate Consistent(v: Visuals) {
    OneShot(v) && WrittenWhenVisible(v.bands) && WrittenWhenVisible(v.cards)
  }

  /** The visibility gate shared by bands and cards: write when on screen,
      otherwise keep the previous transform. */
  function Gate(t: Transform, r: Rect, winH: int): Transform {
    if InViewport(r, winH) then Placed(r, winH) else t
  }

  function GateAll(ts: seq<Transform>, rs: seq<Rect>, winH: int): (us: seq<Transform>)
    requires |rs| == |ts|
    ensures |us| == |ts|
    ensures forall i :: 0 <= i < |ts| && InViewport(rs[i], winH) ==> us[i] == Placed(rs[i], winH)
    ensures forall i :: 0 <= i < |ts| && !InViewport(rs[i], winH) ==> us[i] == ts[i]
    ensures WrittenWhenVisible(ts) ==> WrittenWhenVisible(us)
  {
    seq(|ts|, i requires 0 <= i < |ts| => Gate(ts[i], rs[i], winH))
  }

  function RevealAll(shown: seq<bool>, tops: seq<int>, winH: int): (r: seq<bool>)
    requires |tops| == |shown|
    ensures |r| == |shown|
    ensures forall i :: 0 <= i < |shown| && shown[i] ==> r[i]
    ensures forall i :: 0 <= i < |shown| && r[i] && !shown[i] ==> RevealDue(tops[i], winH)
    ensures forall i :: 0 <= i < |shown| && RevealDue(tops[i], winH) ==> r[i]
  {
    seq(|shown|, i requires 0 <= i < |shown| => shown[i] || RevealDue(tops[i], winH))
  }

  /** The painting half of `onFrame`, steps 1 to 6, with the frame's scroll
      offset, viewport height and geometry. */
  function Paint(v: Visuals, scrollY: int, winH: int, g: Geometry): (r: Visuals)
    requires Fits(v, g)
    ensures Fits(r, g)
    ensures r.navScrolled <==> scrollY > NavThreshold
    ensures r.heroAt == Some(scrollY)
    ensures forall i :: 0 <= i < |v.bands| && InViewport(g.bands[i], winH) ==> r.bands[i] == Placed(g.bands[i], winH)
    ensures forall i :: 0 <= i < |v.bands| && !InViewport(g.bands[i], winH) ==> r.bands[i] == v.bands[i]
    ensures forall i :: 0 <= i < |v.cards| && InViewport(g.cards[i], winH) ==> r.cards[i] == Placed(g.cards[i], winH)
    ensures forall i :: 0 <= i < |v.cards| && !InViewport(g.cards[i], winH) ==> r.cards[i] == v.cards[i]
    ensures forall i :: 0 <= i < |v.revealed| ==> (r.revealed[i] <==> v.revealed[i] || RevealDue(g.revealTops[i], winH))
    ensures r.statsCounted <==> v.statsCounted || CountersFire(v, g, winH)
    ensures r.counterRuns == v.counterRuns + (if CountersFire(v, g, winH) then 1 else 0)
    ensures v.statsCounted ==> r.counterRuns == v.counterRuns
    ensures Consistent(v) ==> Consistent(r)
  {
    var fire := CountersFire(v, g, winH);
    Visuals(
      scrollY > NavThreshold,
      Some(scrollY),
      GateAll(v.bands, g.bands, winH),
      GateAll(v.cards, g.cards, winH),
      RevealAll(v.revealed, g.revealTops, winH),
      v.statsCounted || fire,
      v.counterRuns + (if fire then 1 else 0))
  }

  /** The navbar class depends on the offset alone, with one threshold in both
      directions: 79 leaves it off, 81 puts it on, whatever it was before. */
  lemma NavbarThreshold(v: Visuals, w: Visuals, winH: int, g: Geometry)
    requires Fits(v, g) && Fits(w, g)
    ensures !Paint(v, 79, winH, g).navScrolled && !Paint(v, 80, winH, g).navScrolled
    ensures Paint(w, 81, winH, g).navScrolled
    ensures forall y :: Paint(v, y, winH, g).navScrolled == Paint(w, y, winH, g).navScrolled
  {
  }

  /** Painting the same geometry twice is the same as painting it once, so a
      repeated frame with unchanged input changes nothing. */
  lemma PaintIdempotent(v: Visuals, scrollY: int, winH: int, g: Geometry)
    requires Fits(v, g)
    ensures Paint(Paint(v, scrollY, winH, g), scrollY, winH, g) == Paint(v, scrollY, winH, g)
  {
    var once := Paint(v, scrollY, winH, g);
    var twice := Paint(once, scrollY, winH, g);
    assert twice.bands == once.bands;
    assert twice.cards == once.cards;
    assert twice.revealed == once.revealed;
  }
}

=== FILE: page.dfy ===
/**
  The whole page of script.js as one state machine: the scheduler, the
  viewport height, the painted visuals, the custom selects and the
  registration form (absent when the page has none). Every handler the script
  installs is one event; a frame event runs one queued `onFrame` callback with
  the geometry the page has at that moment.
*/
module Page {
  import opened Wrappers
  import Scheduler
  import opened Effects
  import opened Dropdown
  import Validation

  datatype Event =
    | Scroll(y: int)
    | Resize(h: int)
    | Frame(g: Geometry)
    | TriggerClick(i: nat)
    | OptionClick(i: nat, j: nat)
    | OutsideClick
    | SubmitForm

  datatype PageState = PageState(
    sched: Scheduler.Sched,
    winH: int,
    vis: Visuals,
    selects: seq<Select>,
    form: Option<Validation.Form>)

  /** The event refers to elements the page has: one measurement per element
      in a frame, an existing widget and option in a click. */
  predicate EventFits(p: PageState, e: Event) {
    match e
    case Frame(g) => Fits(p.vis, g)
    case TriggerClick(i) => i < |p.selects|
    case OptionClick(i, j) => i < |p.selects| && j < |p.selects[i].options|
    case _ => true
  }

  predicate AllFit(p: PageState, evs: seq<Event>) {
    forall k :: 0 <= k < |evs| ==> EventFits(p, evs[k])
  }

  /** Same elements, same widgets, same options: no event adds or removes any. */
  predicate SameShape(p: PageState, q: PageState) {
    && |q.vis.bands| == |p.vis.bands|
    && |q.vis.cards| == |p.vis.cards|
    && |q.vis.revealed| == |p.vis.revealed|
    && |q.selects| == |p.selects|
    && (forall k :: 0 <= k < |p.selects| ==> q.selects[k].options == p.selects[k].options)
  }

  /** The page's safety invariant: at most one frame queued beyond the one
      `ticking` accounts for (the load frame), at most one select open, the
      counter animation started exactly as often as the latch records, and
      every parallax transform computed while its element was on screen. */
  predicate Inv(p: PageState) {
    && 0 <= Scheduler.Surplus(p.sched) <= 1
    && AtMostOneOpen(p.selects)
    && Consistent(p.vis)
  }

  /** The page after the script has run at load: every value element marked as
      placeholder and the load frame requested, with `ticking` still false. */
  function Init(scrollY: int, winH: int, bandCount: nat, cardCount: nat, revealCount: nat,
                selects: seq<Select>, form: Option<Validation.Form>): (p: PageState)
    ensures AtMostOneOpen(selects) ==> Inv(p)
    ensures p.sched.pending == 1 && !p.sched.ticking && p.sched.scrollY == scrollY
    ensures |p.vis.bands| == bandCount && |p.vis.cards| == cardCount && |p.vis.revealed| == revealCount
    ensures !p.vis.statsCounted && p.vis.counterRuns == 0
    ensures |p.selects| == |selects| && forall k :: 0 <= k < |selects| ==> p.selects[k].placeholder
    ensures p.selects == MarkPlaceholders(selects) && p.winH == winH && p.form == form
    ensures !p.vis.navScrolled && p.vis.heroAt.None?
    ensures forall i :: 0 <= i < bandCount ==> p.vis.bands[i].Untouched?
    ensures forall i :: 0 <= i < cardCount ==> p.vis.cards[i].Untouched?
    ensures forall i :: 0 <= i < revealCount ==> !p.vis.revealed[i]
  {
    PageState(
      Scheduler.Load(scrollY),
      winH,
      Visuals(false, None, seq(bandCount, _ => Untouched), seq(cardCount, _ => Untouched),
              seq(revealCount, _ => false), false, 0),
      MarkPlaceholders(selects),
      form)
  }

  function Step(p: PageState, e: Event): (r: PageState)
    requires EventFits(p, e)
    ensures SameShape(p, r)
    ensures Inv(p) ==> Inv(r)
    ensures Scheduler.Coalesced(p.sched) ==> Scheduler.Coalesced(r.sched)
  {
    match e
    case Scroll(y) => p.(sched := Scheduler.OnScroll(p.sched, y))
    case Resize(h) => p.(winH := h)
    case Frame(g) =>
      if p.sched.pending == 0 then p
      else p.(sched := Scheduler.OnFrame(p.sched), vis := Paint(p.vis, p.sched.scrollY, p.winH, g))
    case TriggerClick(i) => p.(selects := ClickTrigger(p.selects, i))
    case OptionClick(i, j) => p.(selects := ClickOption(p.selects, i, j))
    case OutsideClick => p.(selects := ClickOutside(p.selects))
    case SubmitForm =>
      match p.form
      case None => p
      case Some(f) =>
        var s := Validation.Submit(f, p.selects);
        p.(form := Some(s.form), selects := s.selects)
  }

  function Run(p: PageState, evs: seq<Event>): (r: PageState)
    requires AllFit(p, evs)
    ensures SameShape(p, r)
    decreases |evs|
  {
    if |evs| == 0 then p
    else
      var q := Step(p, evs[0]);
      assert AllFit(q, evs[1..]) by {
        forall k | 0 <= k < |evs| - 1 ensures EventFits(q, evs[1..][k]) {
          assert EventFits(p, evs[k + 1]);
        }
      }
      Run(q, evs[1..])
  }

  function Scrolls(ys: seq<int>): (evs: seq<Event>)
    ensures |evs| == |ys|
    ensures forall k :: 0 <= k < |ys| ==> evs[k] == Scroll(ys[k])
  {
    seq(|ys|, k requires 0 <= k < |ys| => Scroll(ys[k]))
  }

  /** The page invariant holds after any sequence of events. */
  lemma {:induction false} InvariantHolds(p: PageState, evs: seq<Event>)
    requires AllFit(p, evs) && Inv(p)
    ensures Inv(Run(p, evs))
    decreases |evs|
  {
    if |evs| > 0 {
      InvariantHolds(Step(p, evs[0]), evs[1..]);
    }
  }

  /** From load on, whatever happens: at most two frames queued (the load
      frame and one scroll-requested frame), at most one while `ticking` is
      clear, a raised `ticking` always backed by a queued frame, at most one
      select open, and the counters started at most once. */
  lemma PageRunsSafely(scrollY: int, winH: int, bandCount: nat, cardCount: nat, revealCount: nat,
                       selects: seq<Select>, form: Option<Validation.Form>, evs: seq<Event>)
    requires AtMostOneOpen(selects)
    requires AllFit(Init(scrollY, winH, bandCount, cardCount, revealCount, selects, form), evs)
    ensures var q := Run(Init(scrollY, winH, bandCount, cardCount, revealCount, selects, form), evs);
      && q.sched.pending <= 2
      && (!q.sched.ticking ==> q.sched.pending <= 1)
      && (q.sched.ticking ==> q.sched.pending >= 1)
      && AtMostOneOpen(q.selects)
      && q.vis.counterRuns <= 1
  {
    InvariantHolds(Init(scrollY, winH, bandCount, cardCount, revealCount, selects, form), evs);
  }

  /** Coalescing, once reached, survives any sequence of page events. */
  lemma {:induction false} CoalescedPageRun(p: PageState, evs: seq<Event>)
    requires AllFit(p, evs) && Scheduler.Coalesced(p.sched)
    ensures Scheduler.Coalesced(Run(p, evs).sched)
    decreases |evs|
  {
    if |evs| > 0 {
      CoalescedPageRun(Step(p, evs[0]), evs[1..]);
    }
  }

  /** With the load request raising `ticking` (the corrected start-up), no
      sequence of page events ever queues two frames, and `ticking` is set
      exactly when one frame is queued. */
  lemma BootedPageCoalesced(scrollY: int, winH: int, bandCount: nat, cardCount: nat, revealCount: nat,
                            selects: seq<Select>, form: Option<Validation.Form>, evs: seq<Event>)
    requires AllFit(Init(scrollY, winH, bandCount, cardCount, revealCount, selects, form), evs)
    ensures var p := Init(scrollY, winH, bandCount, cardCount, revealCount, selects, form).(sched := Scheduler.Boot(scrollY));
      && AllFit(p, evs)
      && Run(p, evs).sched.pending <= 1
      && (Run(p, evs).sched.ticking <==> Run(p, evs).sched.pending == 1)
  {
    var p0 := Init(scrollY, winH, bandCount, cardCount, revealCount, selects, form);
    var p := p0.(sched := Scheduler.Boot(scrollY));
    assert AllFit(p, evs) by {
      forall k | 0 <= k < |evs| ensures EventFits(p, evs[k]) {
        assert EventFits(p0, evs[k]);
      }
    }
    CoalescedPageRun(p, evs);
  }

  /** A revealed element stays revealed through any later events. */
  lemma {:induction false} RevealsNeverReset(p: PageState, evs: seq<Event>, i: nat)
    requires AllFit(p, evs)
    requires i < |p.vis.revealed| && p.vis.revealed[i]
    ensures Run(p, evs).vis.revealed[i]
    decreases |evs|
  {
    if |evs| > 0 {
      RevealsNeverReset(Step(p, evs[0]), evs[1..], i);
    }
  }

  /** Once the stats latch is set, no later frame starts the counters again,
      whatever the geometry. */
  lemma {:induction false} LatchStaysClosed(p: PageState, evs: seq<Event>)
    requires AllFit(p, evs) && p.vis.statsCounted
    ensures Run(p, evs).vis.statsCounted
    ensures Run(p, evs).vis.counterRuns == p.vis.counterRuns
    decreases |evs|
  {
    if |evs| > 0 {
      LatchStaysClosed(Step(p, evs[0]), evs[1..]);
    }
  }

  /** A transform that differs after a run was written by a frame in which
      its element was on screen. */
  lemma {:induction false} TransformsChangeOnlyWhenVisible(p: PageState, evs: seq<Event>, i: nat)
    requires AllFit(p, evs)
    requires i < |p.vis.bands|
    ensures Run(p, evs).vis.bands[i] != p.vis.bands[i] ==>
      Run(p, evs).vis.bands[i].Placed? &&
      InViewport(Run(p, evs).vis.bands[i].rect, Run(p, evs).vis.bands[i].viewH)
    decreases |evs|
  {
    if |evs| > 0 {
      var q := Step(p, evs[0]);
      TransformsChangeOnlyWhenVisible(q, evs[1..], i);
    }
  }

  /** Scroll events change nothing but the scheduler. */
  lemma {:induction false} RunScrolls(p: PageState, ys: seq<int>)
    ensures AllFit(p, Scrolls(ys))
    ensures Run(p, Scrolls(ys)) == p.(sched := Scheduler.ScrollAll(p.sched, ys))
    decreases |ys|
  {
    if |ys| > 0 {
      var q := Step(p, Scroll(ys[0]));
      assert Scrolls(ys)[1..] == Scrolls(ys[1..]);
      RunScrolls(q, ys[1..]);
    }
  }

  /** A frame that follows a burst of scrolls paints with the offset of the
      last one and leaves at most the load frame queued; nothing at all once
      the scheduler was coalesced. */
  lemma FrameSeesLatestScroll(p: PageState, ys: seq<int>, g: Geometry)
    requires Inv(p) && |ys| > 0 && Fits(p.vis, g)
    ensures var q := Step(Run(p, Scrolls(ys)), Frame(g));
      && q.sched.scrollY == ys[|ys| - 1]
      && q.vis.heroAt == Some(ys[|ys| - 1])
      && (q.vis.navScrolled <==> ys[|ys| - 1] > NavThreshold)
      && !q.sched.ticking && q.sched.pending <= 1
      && (Scheduler.Coalesced(p.sched) ==> q.sched.pending == 0)
  {
    RunScrolls(p, ys);
    Scheduler.BurstThenFrame(p.sched, ys);
    Scheduler.BurstCoalesces(p.sched, ys);
  }
}

=== FILE: scheduler.dfy ===
/**
  The frame-coalescing scheduler of the parallax engine (script.js). A scroll
  event records the latest offset and asks the host for an animation frame
  exactly when `ticking` is false; the frame callback clears
  `ticking` before it paints, so a scroll that arrives afterwards schedules a
  fresh frame. Frames are explicit events here: `RunFrame` runs one queued
  `onFrame` callback.
*/
module Scheduler {

  /** `scrollY` and `ticking` are the script's own variables; `pending` counts
      the `onFrame` callbacks handed to the host and not yet run. */
  datatype Sched = Sched(scrollY: int, ticking: bool, pending: nat)

  datatype Input = Scroll(y: int) | RunFrame

  /** Queued callbacks beyond the one that `ticking` accounts for. */
  function Surplus(s: Sched): int {
    s.pending - (if s.ticking then 1 else 0)
  }

  /** The coalescing invariant: a frame is queued exactly when `ticking` is
      set, and never more than one. */
  predicate Coalesced(s: Sched) {
    s.pending == (if s.ticking then 1 else 0)
  }

  /** `onScroll`: always record the offset; queue a frame exactly when
      `ticking` is false, whether or not one is already queued. */
  function OnScroll(s: Sched, y: int): (r: Sched)
    ensures r.scrollY == y && r.ticking
    ensures s.ticking ==> r.pending == s.pending
    ensures !s.ticking ==> r.pending == s.pending + 1
    ensures Surplus(r) == Surplus(s)
    ensures Coalesced(s) ==> Coalesced(r) && r.pending == 1
  {
    if s.ticking then s.(scrollY := y)
    else Sched(y, true, s.pending + 1)
  }

  /** `onFrame`, scheduler part: one queued callback runs and re-arms the
      scheduler first. With nothing queued there is no callback to run. */
  function OnFrame(s: Sched): (r: Sched)
    ensures s.pending == 0 ==> r == s
    ensures s.pending > 0 ==> !r.ticking && r.pending == s.pending - 1
    ensures r.scrollY == s.scrollY
    ensures 0 <= Surplus(s) ==> 0 <= Surplus(r) <= Surplus(s)
    ensures Coalesced(s) ==> Coalesced(r)
  {
    if s.pending == 0 then s
    else Sched(s.scrollY, false, s.pending - 1)
  }

  function Step(s: Sched, i: Input): Sched {
    match i
    case Scroll(y) => OnScroll(s, y)
    case RunFrame => OnFrame(s)
  }

  function Run(s: Sched, ins: seq<Input>): Sched
    decreases |ins|
  {
    if |ins| == 0 then s else Run(Step(s, ins[0]), ins[1..])
  }

  /** A burst of scroll events with no frame in between. */
  function ScrollAll(s: Sched, ys: seq<int>): Sched
    decreases |ys|
  {
    if |ys| == 0 then s else ScrollAll(OnScroll(s, ys[0]), ys[1..])
  }

  /** The start-up request of script.js as written: the offset captured at
      load and one frame requested, but `ticking` left false. */
  function Load(y: int): (s: Sched)
    ensures !s.ticking && s.pending == 1 && s.scrollY == y
    ensures Surplus(s) == 1 && !Coalesced(s)
  {
    Sched(y, false, 1)
  }

  /** The start-up request with the flag set, so that the load frame counts
      as the outstanding request like every other one. */
  function Boot(y: int): (s: Sched)
    ensures Coalesced(s) && s.scrollY == y && s.pending == 1
  {
    Sched(y, true, 1)
  }

  /** A second scroll before the frame overrides the first one completely. */
  lemma ScrollIdempotent(s: Sched, a: int, b: int)
    ensures OnScroll(OnScroll(s, a), b) == OnScroll(s, b)
  {
  }

  /** Any burst of scrolls acts as its last scroll alone: at most one frame
      is added and it will read the most recent offset. */
  lemma {:induction false} BurstCoalesces(s: Sched, ys: seq<int>)
    requires |ys| > 0
    ensures ScrollAll(s, ys) == OnScroll(s, ys[|ys| - 1])
    decreases |ys|
  {
    if |ys| > 1 {
      BurstCoalesces(OnScroll(s, ys[0]), ys[1..]);
      ScrollIdempotent(s, ys[0], ys[|ys| - 1]);
    }
  }

  /** A frame run after a burst of scrolls paints with the last offset, and
      the burst cost at most one frame. */
  lemma BurstThenFrame(s: Sched, ys: seq<int>)
    requires |ys| > 0
    ensures OnFrame(ScrollAll(s, ys)).scrollY == ys[|ys| - 1]
    ensures ScrollAll(s, ys).pending <= s.pending + 1
    ensures Coalesced(s) ==> ScrollAll(s, ys).pending == 1 && Coalesced(OnFrame(ScrollAll(s, ys)))
  {
    BurstCoalesces(s, ys);
  }

  /** A scroll that arrives once a frame has started schedules exactly one
      new frame, whatever the flag was before. */
  lemma FrameThenScroll(s: Sched, y: int)
    requires s.pending > 0
    ensures OnScroll(OnFrame(s), y).pending == s.pending
    ensures OnScroll(OnFrame(s), y).ticking
  {
  }

  /** Coalescing holds along every sequence of scrolls and frames. */
  lemma {:induction false} CoalescedRun(s: Sched, ins: seq<Input>)
    requires Coalesced(s)
    ensures Coalesced(Run(s, ins))
    ensures Run(s, ins).pending <= 1
    decreases |ins|
  {
    if |ins| > 0 {
      CoalescedRun(Step(s, ins[0]), ins[1..]);
    }
  }

  /** With the flag set at start-up, no input sequence ever queues two frames. */
  lemma BootedRunCoalesced(y: int, ins: seq<Input>)
    ensures Coalesced(Run(Boot(y), ins))
    ensures Run(Boot(y), ins).pending <= 1
  {
    CoalescedRun(Boot(y), ins);
  }

  /** As written, the surplus never grows and never goes negative: at most one
      callback beyond the coalesced one, and a raised flag always has a
      callback behind it. */
  lemma {:induction false} SurplusRun(s: Sched, ins: seq<Input>)
    requires 0 <= Surplus(s)
    ensures 0 <= Surplus(Run(s, ins)) <= Surplus(s)
    decreases |ins|
  {
    if |ins| > 0 {
      SurplusRun(Step(s, ins[0]), ins[1..]);
    }
  }

  /** As written, the page never queues more than two frames, and a raised
      `ticking` always has a queued frame behind it. */
  lemma LoadRunBounded(y: int, ins: seq<Input>)
    ensures Run(Load(y), ins).pending <= 2
    ensures Run(Load(y), ins).ticking ==> Run(Load(y), ins).pending >= 1
  {
    SurplusRun(Load(y), ins);
  }

  /** The counterexample to coalescing as written: a scroll delivered before
      the load frame has run queues a second `onFrame`. */
  lemma LoadScrollQueuesTwoFrames(y: int, z: int)
    ensures Run(Load(y), [Scroll(z)]).pending == 2
    ensures !Coalesced(Run(Load(y), [Scroll(z)]))
  {
    assert [Scroll(z)][1..] == [];
  }
}

=== FILE: validation.dfy ===
/**
  The registration form's submit handler in script.js: clear old errors, flag
  every required field that is blank after trimming, every custom select
  without a value and an unchecked terms box; then either show the
  confirmation overlay and reset the form and the selects, or shake the form.
*/
module Validation {
  import opened Wrappers
  import opened Dropdown

  /** ECMAScript WhiteSpace and LineTerminator code points, the characters
      `String.prototype.trim` removes. */
  predicate IsWhitespace(c: char) {
    var n := c as int;
    n == 0x09 || n == 0x0A || n == 0x0B || n == 0x0C || n == 0x0D || n == 0x20
    || n == 0xA0 || n == 0x1680 || (0x2000 <= n <= 0x200A) || n == 0x2028
    || n == 0x2029 || n == 0x202F || n == 0x205F || n == 0x3000 || n == 0xFEFF
  }

  predicate AllWhitespace(s: string) {
    forall i :: 0 <= i < |s| ==> IsWhitespace(s[i])
  }

  function TrimStart(s: string): (r: string)
    ensures |r| <= |s|
    ensures |r| > 0 ==> !IsWhitespace(r[0])
    decreases |s|
  {
    if |s| > 0 && IsWhitespace(s[0]) then TrimStart(s[1..]) else s
  }

  function TrimEnd(s: string): (r: string)
    ensures |r| <= |s|
    ensures |r| > 0 ==> !IsWhitespace(r[|r| - 1])
    decreases |s|
  {
    if |s| > 0 && IsWhitespace(s[|s| - 1]) then TrimEnd(s[..|s| - 1]) else s
  }

  /** `String.prototype.trim`. */
  function Trim(s: string): string {
    TrimEnd(TrimStart(s))
  }

  lemma {:induction false} TrimStartEmpty(s: string)
    ensures TrimStart(s) == [] <==> AllWhitespace(s)
    decreases |s|
  {
    if |s| > 0 && IsWhitespace(s[0]) {
      TrimStartEmpty(s[1..]);
      assert AllWhitespace(s) <==> AllWhitespace(s[1..]) by {
        if AllWhitespace(s[1..]) {
          forall i | 0 <= i < |s| ensures IsWhitespace(s[i]) {
            if i > 0 { assert s[i] == s[1..][i - 1]; }
          }
        }
      }
    }
  }

  lemma {:induction false} TrimEndEmpty(s: string)
    ensures TrimEnd(s) == [] <==> AllWhitespace(s)
    decreases |s|
  {
    if |s| > 0 && IsWhitespace(s[|s| - 1]) {
      var t := s[..|s| - 1];
      TrimEndEmpty(t);
      assert AllWhitespace(s) <==> AllWhitespace(t) by {
        if AllWhitespace(t) {
          forall i | 0 <= i < |s| ensures IsWhitespace(s[i]) {
            if i < |s| - 1 { assert s[i] == t[i]; }
          }
        }
      }
    }
  }

  /** `TrimStart` drops a prefix made only of whitespace. */
  lemma {:induction false} TrimStartDropsWhitespace(s: string)
    ensures TrimStart(s) == s[|s| - |TrimStart(s)|..]
    ensures forall i :: 0 <= i < |s| - |TrimStart(s)| ==> IsWhitespace(s[i])
    decreases |s|
  {
    if |s| > 0 && IsWhitespace(s[0]) {
      var t := s[1..];
      TrimStartDropsWhitespace(t);
      assert t[|t| - |TrimStart(t)|..] == s[|s| - |TrimStart(s)|..];
      forall i | 0 < i < |s| - |TrimStart(s)| ensures IsWhitespace(s[i]) {
        assert s[i] == t[i - 1];
      }
    }
  }

  /** `TrimEnd` drops a suffix made only of whitespace. */
  lemma {:induction false} TrimEndDropsWhitespace(s: string)
    ensures TrimEnd(s) == s[..|TrimEnd(s)|]
    ensures forall i :: |TrimEnd(s)| <= i < |s| ==> IsWhitespace(s[i])
    decreases |s|
  {
    if |s| > 0 && IsWhitespace(s[|s| - 1]) {
      var t := s[..|s| - 1];
      TrimEndDropsWhitespace(t);
      assert t[..|TrimEnd(t)|] == s[..|TrimEnd(s)|];
      forall i | |TrimEnd(s)| <= i < |s| - 1 ensures IsWhitespace(s[i]) {
        assert s[i] == t[i];
      }
    }
  }

  /** `trim` keeps one contiguous run of the value, drops only whitespace
      around it, and the run neither starts nor ends with whitespace. */
  lemma TrimKeepsCore(s: string)
    ensures exists a, b :: (
              && 0 <= a <= b <= |s| && Trim(s) == s[a..b]
              && (forall i :: 0 <= i < a ==> IsWhitespace(s[i]))
              && (forall i :: b <= i < |s| ==> IsWhitespace(s[i])))
    ensures |Trim(s)| > 0 ==> !IsWhitespace(Trim(s)[0]) && !IsWhitespace(Trim(s)[|Trim(s)| - 1])
  {
    var t := TrimStart(s);
    TrimStartDropsWhitespace(s);
    TrimEndDropsWhitespace(t);
    var a := |s| - |t|;
    var b := a + |TrimEnd(t)|;
    assert Trim(s) == s[a..b];
    forall i | b <= i < |s| ensures IsWhitespace(s[i]) {
      assert s[i] == t[i - a];
    }
  }

  /** A value trims to the empty string exactly when every character of it is
      whitespace. */
  lemma TrimEmptyIffWhitespace(s: string)
    ensures Trim(s) == [] <==> AllWhitespace(s)
  {
    TrimStartEmpty(s);
    TrimEndEmpty(TrimStart(s));
  }

  /** A required field fails when `!field.value.trim()`. */
  predicate Blank(value: string) {
    Trim(value) == ""
  }

  /** A custom select passes when its hidden input exists and holds a
      non-empty value. */
  predicate Filled(s: Select) {
    s.hidden.Some? && s.hidden.value != ""
  }

  /** A required, non-hidden input or textarea. */
  datatype Field = Field(value: string, defaultValue: string, error: bool)

  /** The `#terms` checkbox; `error` sits on its parent element. */
  datatype Terms = Terms(checked: bool, defaultChecked: bool, error: bool)

  /** The form's controls and its two visual outcomes: the `shake` class on
      the form and the `active` class on the confirmation overlay. */
  datatype Form = Form(fields: seq<Field>, terms: Option<Terms>, shaking: bool, overlayOpen: bool)

  datatype Submitted = Submitted(form: Form, selects: seq<Select>)

  predicate TermsAccepted(t: Option<Terms>) {
    t.None? || t.value.checked
  }

  /** The verdict, control by control. */
  predicate Valid(fields: seq<Field>, selects: seq<Select>, terms: Option<Terms>) {
    && (forall i :: 0 <= i < |fields| ==> !Blank(fields[i].value))
    && (forall k :: 0 <= k < |selects| ==> Filled(selects[k]))
    && TermsAccepted(terms)
  }

  /** No control of the form, select or terms box carries `error`. */
  predicate NoErrors(f: Form, selects: seq<Select>) {
    && (forall i :: 0 <= i < |f.fields| ==> !f.fields[i].error)
    && (forall k :: 0 <= k < |selects| ==> !selects[k].error)
    && (f.terms.Some? ==> !f.terms.value.error)
  }

  /** The validation pass as the handler runs it: one flag, lowered by each
      failing check in turn, and one error mark per failing control. It is the
      imperative form of `Valid`, `Blank` and `Filled`, which `Submit` uses
      directly. */
  method CheckControls(fields: seq<Field>, selects: seq<Select>, terms: Option<Terms>)
    returns (isValid: bool, fieldErrors: seq<bool>, selectErrors: seq<bool>, termsError: bool)
    ensures isValid <==> Valid(fields, selects, terms)
    ensures |fieldErrors| == |fields| && |selectErrors| == |selects|
    ensures forall i :: 0 <= i < |fields| ==> (fieldErrors[i] <==> Blank(fields[i].value))
    ensures forall k :: 0 <= k < |selects| ==> (selectErrors[k] <==> !Filled(selects[k]))
    ensures termsError <==> !TermsAccepted(terms)
  {
    isValid := true;
    fieldErrors := [];
    var i := 0;
    while i < |fields|
      invariant 0 <= i <= |fields| && |fieldErrors| == i
      invariant forall m :: 0 <= m < i ==> (fieldErrors[m] <==> Blank(fields[m].value))
      invariant isValid <==> forall m :: 0 <= m < i ==> !Blank(fields[m].value)
    {
      var blank := Blank(fields[i].value);
      if blank {
        isValid := false;
      }
      fieldErrors := fieldErrors + [blank];
      i := i + 1;
    }
    selectErrors := [];
    var k := 0;
    while k < |selects|
      invariant 0 <= k <= |selects| && |selectErrors| == k
      invariant forall m :: 0 <= m < k ==> (selectErrors[m] <==> !Filled(selects[m]))
      invariant isValid <==> (forall m :: 0 <= m < |fields| ==> !Blank(fields[m].value))
                             && (forall m :: 0 <= m < k ==> Filled(selects[m]))
    {
      var missing := !Filled(selects[k]);
      if missing {
        isValid := false;
      }
      selectErrors := selectErrors + [missing];
      k := k + 1;
    }
    termsError := terms.Some? && !terms.value.checked;
    if termsError {
      isValid := false;
    }
  }

  /** A select after the explicit reset on success. */
  function ResetSelect(s: Select): Select {
    s.(text := s.placeholderText, placeholder := true, hidden := Some(""), active := {})
  }

  /** The submit handler. Errors are cleared and re-marked on exactly the
      failing controls; on success the overlay opens, fields and the checkbox
      return to their default values and every select to its placeholder; on
      failure the form shakes and nothing is reset. */
  function Submit(f: Form, selects: seq<Select>): (r: Submitted)
    ensures |r.form.fields| == |f.fields| && |r.selects| == |selects|
    ensures r.form.terms.Some? <==> f.terms.Some?
    ensures forall k :: 0 <= k < |selects| ==>
      r.selects[k].open == selects[k].open && r.selects[k].options == selects[k].options
    ensures forall i :: 0 <= i < |f.fields| ==> (r.form.fields[i].error <==> Blank(f.fields[i].value))
    ensures forall k :: 0 <= k < |selects| ==> (r.selects[k].error <==> !Filled(selects[k]))
    ensures f.terms.Some? ==> (r.form.terms.value.error <==> !f.terms.value.checked)
    ensures Valid(f.fields, selects, f.terms) <==> NoErrors(r.form, r.selects)
    ensures Valid(f.fields, selects, f.terms) ==>
      && r.form.overlayOpen && r.form.shaking == f.shaking
      && (forall i :: 0 <= i < |f.fields| ==> r.form.fields[i].value == f.fields[i].defaultValue)
      && (f.terms.Some? ==> r.form.terms.value.checked == f.terms.value.defaultChecked)
      && (forall k :: 0 <= k < |selects| ==>
            && r.selects[k].text == selects[k].placeholderText && r.selects[k].placeholder
            && r.selects[k].hidden == Some("") && r.selects[k].active == {})
    ensures Valid(f.fields, selects, f.terms) ==>
      && (forall i :: 0 <= i < |f.fields| ==>
            r.form.fields[i] == f.fields[i].(value := f.fields[i].defaultValue, error := false))
      && (f.terms.Some? ==>
            r.form.terms.value == f.terms.value.(checked := f.terms.value.defaultChecked, error := false))
      && (forall k :: 0 <= k < |selects| ==>
            r.selects[k] == selects[k].(text := selects[k].placeholderText, placeholder := true,
                                        hidden := Some(""), active := {}, error := false))
    ensures !Valid(f.fields, selects, f.terms) ==>
      && r.form.shaking && r.form.overlayOpen == f.overlayOpen
      && (forall i :: 0 <= i < |f.fields| ==> r.form.fields[i] == f.fields[i].(error := r.form.fields[i].error))
      && (f.terms.Some? ==> r.form.terms.value == f.terms.value.(error := r.form.terms.value.error))
      && (forall k :: 0 <= k < |selects| ==> r.selects[k] == selects[k].(error := r.selects[k].error))
  {
    var marked := seq(|f.fields|, i requires 0 <= i < |f.fields| =>
      f.fields[i].(error := Blank(f.fields[i].value)));
    var flagged := seq(|selects|, k requires 0 <= k < |selects| =>
      selects[k].(error := !Filled(selects[k])));
    var terms := match f.terms
      case None => None
      case Some(t) => Some(t.(error := !t.checked));
    if Valid(f.fields, selects, f.terms) then
      var reset := seq(|marked|, i requires 0 <= i < |marked| =>
        marked[i].(value := marked[i].defaultValue));
      var resetTerms := match terms
        case None => None
        case Some(t) => Some(t.(checked := t.defaultChecked));
      Submitted(
        f.(fields := reset, terms := resetTerms, overlayOpen := true),
        seq(|flagged|, k requires 0 <= k < |flagged| => ResetSelect(flagged[k])))
    else
      Submitted(f.(fields := marked, terms := terms, shaking := true), flagged)
  }

  /** The error marks a submission leaves do not depend on the marks left by an
      earlier one. */
  lemma ErrorsIgnoreHistory(f: Form, g: Form, selects: seq<Select>, others: seq<Select>)
    requires |f.fields| == |g.fields| && |selects| == |others|
    requires forall i :: 0 <= i < |f.fields| ==> f.fields[i].value == g.fields[i].value
    requires forall k :: 0 <= k < |selects| ==> selects[k].hidden == others[k].hidden
    requires f.terms.Some? <==> g.terms.Some?
    requires f.terms.Some? ==> f.terms.value.checked == g.terms.value.checked
    ensures NoErrors(Submit(f, selects).form, Submit(f, selects).selects)
        <==> NoErrors(Submit(g, others).form, Submit(g, others).selects)
    ensures forall i :: 0 <= i < |f.fields| ==>
      Submit(f, selects).form.fields[i].error == Submit(g, others).form.fields[i].error
    ensures forall k :: 0 <= k < |selects| ==>
      Submit(f, selects).selects[k].error == Submit(g, others).selects[k].error
  {
  }

  /** After a successful submission the selects are empty again, so submitting
      the reset form straight away fails whenever the page has a select. */
  lemma ResubmitAfterSuccessFails(f: Form, selects: seq<Select>)
    requires Valid(f.fields, selects, f.terms) && |selects| > 0
    ensures !Valid(Submit(f, selects).form.fields, Submit(f, selects).selects, Submit(f, selects).form.terms)
  {
    assert !Filled(Submit(f, selects).selects[0]);
  }

  /** A required field that holds only spaces, tabs or line breaks fails, and
      one with any other character passes. */
  lemma BlankMeansOnlyWhitespace(value: string)
    ensures Blank(value) <==> forall i :: 0 <= i < |value| ==> IsWhitespace(value[i])
  {
    TrimEmptyIffWhitespace(value);
  }
}

=== FILE: wrappers.dfy ===
/** Optional values: a page element, attribute or control that may be absent. */
module Wrappers {

  datatype Option<+T> = None | Some(value: T)

}
